=== FILE: README.md ===
# Scriptures navigation core, modelled in Dafny

This project models the navigation logic of the `Scriptures` front-end module:
a static catalog of volumes and books, the rule that says which book/chapter
references exist, next/previous chapter adjacency across book boundaries, the
remote chapter-content address, the location-hash route codec (`hash` and the
decision logic of `onHashChanged`), the breadcrumbs and volume listing each
`navigate*` call shows, and the two-flag join in `init`. Two revisions of the
module are covered: `HW6/js/scriptures.js` (complete) and `js/scriptures.js`
(earlier, same helpers).

Modules, leaf first:

- `Opt` (`opt.dfy`): `Option`, standing for JavaScript `undefined`.
- `Decimal` (`decimal.dfy`): the decimal text JavaScript writes for a safe integer, and `Number()` on such text.
- `Text` (`text.dfy`): `split`/`join` on one delimiter character, and a cut at its first occurrence.
- `Catalogs` (`catalogs.dfy`): `Book`, `Volume`, the `Catalog` of `books` and `volumeArray`, the invariants the code relies on (`WellFormed`), `cacheBooks`, `bookById`, `volumeArray[i]`.
- `Reference` (`reference.dfy`): `bookChapterValid`, `nextChapter`, `prevChapter`.
- `ContentUrl` (`content_url.dfy`): `encodedScriptureUrlParameters`, `urlForScriptureChapter`, and a parser of the address as their partner.
- `Route` (`route.dfy`): `hash`, the segment list `onHashChanged` reads, and the ordered list of `navigate*` calls it makes.
- `View` (`view.dfy`): `breadcrumbs`, the volume filter of `navigateHome`, the screen each `navigate*` call leaves, a run of a call list.
- `Loader` (`loader.dfy`): `init` as a two-event state machine.

Catalog invariants stated as preconditions (`Catalogs.WellFormed`): each book
is stored under its own id with `numChapters >= 0`; book ids are dense; the
volume at index `i` has id `i + 1`; every id in a volume's
`[minBookId, maxBookId]` names a book. The code reads `volumeArray[id - 1]`
and `volumeArray[0].id` / `volumeArray[length - 1].id` on the strength of the
third, and `cacheBooks` pushes `books[id]` unchecked on the strength of the
fourth.

The screen is modelled as a value: the content area is the list of volumes
shown (each with its cached books) or a book/chapter stub, and the crumbs are
a list of (text, optional `hash` call) pairs. A `navigate*` call that reads a
field of a missing book throws after writing the content area; the model
keeps that partial screen as `Crashed`.

A token with four or more segments is read as a chapter route, its extra
segments ignored, and a failed book or chapter check does not cleanly fall
back to home (see Findings); the model does the same.

## Model

| member | source | states |
|---|---|---|
| Decimal.IntToString | HW6/js/scriptures.js:153-159 | the text concatenated for an integer is canonical decimal: digits, a leading minus sign exactly for a negative value, and no leading zero except for `0` itself |
| Decimal.ParseIntToString | HW6/js/scriptures.js:246 | `Number()` of the text JavaScript writes for an integer gives back that integer |
| Text.Split | HW6/js/scriptures.js:239 | `split(":")` yields at least one piece and no piece contains the delimiter |
| Text.JoinSplit | HW6/js/scriptures.js:239 | joining the pieces of `split(":")` with `:` restores the text, so no character is lost or invented |
| Text.SplitJoin | HW6/js/scriptures.js:239 | splitting a `:`-join of colon-free pieces returns exactly those pieces |
| Catalogs.BooksInRange | HW6/js/scriptures.js:80-85 | the loop collects `books[lo]`, ..., `books[hi]` in ascending id order: `hi - lo + 1` of them, none when `lo > hi` |
| Catalogs.CacheBooks | js/scriptures.js:49-61 | every volume gets the books of its id range in ascending order and no other field of any volume changes |
| Catalogs.CacheBooksCaches | HW6/js/scriptures.js:77-89 | after `cacheBooks` a well-formed catalog stays well-formed and every volume carries exactly its range's books |
| Catalogs.BookById | HW6/js/scriptures.js:145-147 | defined exactly for stored ids; on a well-formed catalog the book returned has that id |
| Catalogs.VolumeAt | HW6/js/scriptures.js:136 | `volumeArray[i]` is defined exactly for indices in the array; on a well-formed catalog it is the volume with id `i + 1` |
| Reference.BookChapterValid | HW6/js/scriptures.js:38-50 | false for a missing book; a book with chapters accepts exactly `1..numChapters`; a chapterless book accepts only `0` |
| Reference.NextChapter | HW6/js/scriptures.js:211-230 | defined only for an existing book; on a well-formed catalog, from a valid reference it gives a valid later one, and it is undefined exactly at the last chapter of the highest book id |
| Reference.PrevChapter | HW6/js/scriptures.js:277-291 | defined only for an existing book; on a well-formed catalog, from a valid reference it gives a valid earlier one, and it is undefined exactly at the first chapter of the lowest book id |
| Reference.NextIsSuccessor | HW6/js/scriptures.js:211-230 | on a well-formed catalog `nextChapter` of a valid reference is valid, comes after it, and no valid reference lies between; it is undefined exactly when no valid reference follows |
| Reference.PrevIsPredecessor | HW6/js/scriptures.js:277-291 | on a well-formed catalog `prevChapter` of a valid reference is valid, comes before it, and no valid reference lies between; it is undefined exactly when none precedes |
| Reference.PrevOfNext | js/scriptures.js:129-148 | stepping back from the next chapter of a valid reference returns to it |
| Reference.NextOfPrev | js/scriptures.js:168-182 | stepping forward from the previous chapter of a valid reference returns to it |
| ContentUrl.Options | HW6/js/scriptures.js:94-101 | the query options are the verse text (empty when missing), followed by `&jst=JST` when the flag is set and by nothing otherwise |
| ContentUrl.EncodedScriptureUrlParameters | js/scriptures.js:30-44 | an address exactly when both book id and chapter are given, always under the fixed content prefix |
| ContentUrl.ParseEncoded | HW6/js/scriptures.js:91-105 | the address built reads back as the book id, chapter and options it was built from, and the parser accepts only canonical decimal text (as `"" + n` writes it) for the book id and chapter, so the address's text is fixed and not just its numeric values |
| ContentUrl.UrlForScriptureChapter | HW6/js/scriptures.js:293-301 | an address exactly when `bookChapterValid` holds, and that address names the requested book, chapter and options |
| Route.Args | HW6/js/scriptures.js:149-162 | `hash` writes at most three integers; a missing argument drops it and every later one, so a book id without a volume id is ignored |
| Route.Hash | HW6/js/scriptures.js:149-166 | the token is empty exactly when no volume id is given |
| Route.LocationHash | HW6/js/scriptures.js:165 | the location reads back `""` for an empty token and otherwise `#` followed by exactly the token |
| Route.Segments | HW6/js/scriptures.js:237-240 | no segments for `""` or `"#"`; otherwise colon-free segments that joined by `:` give the hash without its first character |
| Route.HashSegments | HW6/js/scriptures.js:153-159 | splitting the location set by `hash` gives the decimal text of the integers it wrote, and `Number()` of those restores them |
| Route.OnHashChanged | HW6/js/scriptures.js:232-273 | one or two calls; two only as `navigateHome()` then the book or chapter call; no segments or one segment make a single home call; two segments end with `navigateBook(ids[1])`, three or more with `navigateChapter(ids[1], ids[2])` |
| Route.DecodeSegments | HW6/js/scriptures.js:242-272 | on a well-formed catalog one segment `v` calls `navigateHome(v)` iff `1 <= v <=` the volume count, else `navigateHome()`; the longer routes make a single call iff the book (and chapter) check passes |
| Route.DecodeIgnores | HW6/js/scriptures.js:253-272 | the volume segment of a book or chapter route and every segment after the third are never read |
| Route.HashRoundTrip | HW6/js/scriptures.js:149-273 | a token built by `hash` decodes through the location to the same calls as its integers; home, an existing volume, an existing book or a valid chapter each decode to the one matching call |
| Route.OnHashChangedFallback | HW6/js/scriptures.js:253-272 | corrected decoder: always one call, and a book or chapter call only for an existing book or valid reference |
| Route.FallbackAgrees | HW6/js/scriptures.js:257-271 | the corrected decoder makes the same single call as the code when its check passes, and only the home call when it fails |
| View.Breadcrumbs | HW6/js/scriptures.js:52-75 | starts with "The Scriptures", then volume name, book `tocName` and the chapter as the canonical decimal text `"" + chapter` writes, as far as given (the book is last when the chapter is missing or 0); exactly the last crumb is unlinked |
| View.CrumbLinksLeadUp | HW6/js/scriptures.js:58-68 | on a well-formed catalog the crumb links decode to the home view, the volume's own view and the book's view |
| View.SelectVolumes | HW6/js/scriptures.js:124-133 | lists exactly the volumes whose id equals the given one, or all when none is given, never more than the array holds |
| View.SelectAll | js/scriptures.js:112-125 | with no volume id every volume is listed, in array order |
| View.SelectNumbered | HW6/js/scriptures.js:125 | with consecutively numbered volumes an id lists the single volume carrying it, or nothing when out of range |
| View.NavigateHome | HW6/js/scriptures.js:121-138 | shows a volume listing, with one crumb, or two when the volume id names an array entry |
| View.HomeView | HW6/js/scriptures.js:121-137 | the home view lists all volumes under one unlinked "The Scriptures" crumb |
| View.VolumeView | HW6/js/scriptures.js:124-137 | an existing volume's view lists that volume alone, under a linked home crumb and its unlinked name |
| View.NavigateBook | HW6/js/scriptures.js:107-112 | the book stub is always written; it throws exactly for a missing book, leaving the crumbs unchanged; otherwise the last crumb is unlinked |
| View.NavigateChapter | HW6/js/scriptures.js:114-119 | the chapter stub is always written; it throws exactly for a missing book, leaving the crumbs unchanged; otherwise the last crumb is unlinked |
| View.Run | HW6/js/scriptures.js:242-272 | the handler's calls run in order and it finishes exactly when no call reads a missing book; then the last call alone decides the screen |
| View.FailedCheckAsWritten | HW6/js/scriptures.js:257-271 | as written, a missing book throws after showing its stub under home crumbs, and an invalid chapter of an existing book is shown anyway |
| View.FallbackShowsHome | HW6/js/scriptures.js:253-272 | with the corrected decoder no token throws, and a token whose check fails ends on the full home view |
| View.BookRouteView | HW6/js/scriptures.js:107-112 | an existing book's token ends on that book's stub with the crumbs of `volumeArray[parentBookId - 1]` and the book, whatever its volume segment |
| View.ChapterRouteView | HW6/js/scriptures.js:262-271 | a valid chapter token ends on that chapter's stub with its breadcrumbs, whatever its volume segment |
| Loader.Step | HW6/js/scriptures.js:168-205 | a handler stores its data and raises its flag; only the handler that finds the other flag up caches the books and counts one callback |
| Loader.JoinEitherOrder | js/scriptures.js:73-110 | in either arrival order the first handler neither caches nor calls back, and both orders end in the same state: books cached, callback run once |

## Left out

- DOM writes (`$("#scriptures").html`, `$("#crumb").html`) and the HTML markup: the model keeps the selected volumes, the stubs and the crumb list instead.
- The `$.ajax` fetches, their URLs and JSON payloads: `init` receives the loaded data as events; a failed fetch (no error handler, so the callback never runs) is not modelled.
- Reading and assigning `window.location.hash` and the `hashchange` event: `Route.LocationHash` stands for the browser reading back `"#" + token` (or `""`) after the assignment.
- `Number()` on arbitrary text (NaN, blanks, fractions): segments are integers, and `Number()` is modelled only on the canonical decimal text the encoder writes.
- Non-integer ids and chapters passed to the public functions: all such arguments are integers.
- Magnitudes beyond JavaScript's safe integers: ids, chapters and volume ids are assumed to satisfy |n| <= 2^53 - 1, so `bookId + 1`, `chapter + 1` and the decimal text are exact; larger values (inexact doubles, exponent text such as `1e+21`) are not modelled.
- `Route.OnHashChanged`: requires a non-empty volume array when there is exactly one segment, because `volumeArray[0].id` throws otherwise.
- `volumes()`: with value semantics the defensive `slice()` copy is indistinguishable from the array, so the model reads the catalog's sequence directly.
- The truthiness of `isJst` for non-boolean values: it is an optional boolean, and only `true` adds the flag.
- `verses` of a type other than string: it is optional text.
- `onHashChanged` in `js/scriptures.js`: it calls an unbound `navigateHome` and does nothing for a non-empty hash, so it is unfinished scaffolding.
- `nextChapter` / `prevChapter` on references that are not valid (negative or too large chapters): the functions follow the code for every integer, but the adjacency properties are stated for valid references only, as the callers use them.

## Findings

| source | as written | input that shows it | evidently intended | confidence | as-written member | corrected member |
|---|---|---|---|---|---|---|
| HW6/js/scriptures.js:257-271 | the two- and three-segment branches call `navigateHome()` on a failed check and then still call `navigateBook` / `navigateChapter` (no `else`) | `#1:0` on a catalog without book 0: the book stub is written, then reading `book.parentBookId` throws; `#1:b:0` for an existing book `b` with chapters: chapter 0 is shown | a failed check shows the home view only, as the later revision `HW 8 Wilkin Alicia/js/scriptures.js` (lines 429-444) does with `else` branches | high; not executed | View.FailedCheckAsWritten | View.FallbackShowsHome |

=== FILE: catalogs.dfy ===
/**
 * The static catalog: the `books` object keyed by book id and the
 * `volumeArray`, plus the derived per-volume book lists built by `cacheBooks`.
 */
module Catalogs {
  import opened Opt

  datatype Book = Book(id: int, parentBookId: int, fullName: string, tocName: string, numChapters: int)

  datatype Volume = Volume(id: int, fullName: string, minBookId: int, maxBookId: int, books: seq<Book>)

  /** The module-private `books` and `volumeArray` once both have loaded. */
  datatype Catalog = Catalog(books: map<int, Book>, volumes: seq<Volume>)

  /** Every id in the volume's `[minBookId, maxBookId]` range names a book. */
  predicate Covered(books: map<int, Book>, v: Volume) {
    forall id :: v.minBookId <= id <= v.maxBookId ==> id in books
  }

  predicate AllCovered(books: map<int, Book>, vols: seq<Volume>) {
    forall i :: 0 <= i < |vols| ==> Covered(books, vols[i])
  }

  /** No gaps between book ids. */
  ghost predicate Dense(books: map<int, Book>) {
    forall lo, k, hi :: lo in books && hi in books && lo <= k <= hi ==> k in books
  }

  /**
   * What the navigation code silently relies on: each book is stored under
   * its own id and has a non-negative chapter count, ids are dense, the
   * volume at index `i` has id `i + 1`, and every book a volume claims exists.
   */
  ghost predicate WellFormed(c: Catalog) {
    && (forall k :: k in c.books ==> c.books[k].id == k && c.books[k].numChapters >= 0)
    && Dense(c.books)
    && (forall i :: 0 <= i < |c.volumes| ==> c.volumes[i].id == i + 1)
    && AllCovered(c.books, c.volumes)
  }

  /** Number of ids in a volume's book range. */
  function Span(v: Volume): nat {
    if v.minBookId <= v.maxBookId then v.maxBookId - v.minBookId + 1 else 0
  }

  /** The books with ids `lo, lo + 1, ..., hi`, in that order. */
  function BooksInRange(books: map<int, Book>, lo: int, hi: int): (r: seq<Book>)
    requires forall id :: lo <= id <= hi ==> id in books
    ensures |r| == if lo <= hi then hi - lo + 1 else 0
    ensures forall j :: 0 <= j < |r| ==> r[j] == books[lo + j]
    decreases hi - lo
  {
    if lo > hi then [] else [books[lo]] + BooksInRange(books, lo + 1, hi)
  }

  /** `cacheBooks`: give every volume the list of its books, changing nothing else. */
  function CacheBooks(books: map<int, Book>, vols: seq<Volume>): (r: seq<Volume>)
    requires AllCovered(books, vols)
    ensures |r| == |vols|
    ensures forall i :: 0 <= i < |r| ==>
              && r[i].(books := vols[i].books) == vols[i]
              && |r[i].books| == Span(vols[i])
              && forall j :: 0 <= j < |r[i].books| ==> r[i].books[j] == books[vols[i].minBookId + j]
  {
    seq(|vols|, i requires 0 <= i < |vols| =>
      vols[i].(books := BooksInRange(books, vols[i].minBookId, vols[i].maxBookId)))
  }

  /** Every volume carries the book list `cacheBooks` gives it. */
  predicate Cached(c: Catalog) {
    forall i :: 0 <= i < |c.volumes| ==>
      && Covered(c.books, c.volumes[i])
      && |c.volumes[i].books| == Span(c.volumes[i])
      && forall j :: 0 <= j < |c.volumes[i].books| ==>
           c.volumes[i].books[j] == c.books[c.volumes[i].minBookId + j]
  }

  /** `bookById`: the book stored under `id`, if any. */
  function BookById(c: Catalog, id: int): (r: Option<Book>)
    ensures r.Some? <==> id in c.books
    ensures r.Some? ==> r.value == c.books[id]
    ensures WellFormed(c) && r.Some? ==> r.value.id == id && r.value.numChapters >= 0
  {
    if id in c.books then Some(c.books[id]) else None
  }

  /** `volumeArray[i]`: `undefined` outside the array. */
  function VolumeAt(c: Catalog, i: int): (r: Option<Volume>)
    ensures r.Some? <==> 0 <= i < |c.volumes|
    ensures WellFormed(c) && r.Some? ==> r.value.id == i + 1 && r.value in c.volumes
  {
    if 0 <= i < |c.volumes| then Some(c.volumes[i]) else None
  }

  /** After `cacheBooks` on a well-formed catalog the volumes carry their book lists. */
  lemma CacheBooksCaches(c: Catalog)
    requires WellFormed(c)
    ensures WellFormed(c.(volumes := CacheBooks(c.books, c.volumes)))
    ensures Cached(c.(volumes := CacheBooks(c.books, c.volumes)))
  {
  }
}

=== FILE: content_url.dfy ===
/**
 * The remote chapter-content address: `encodedScriptureUrlParameters` and
 * its guarded wrapper `urlForScriptureChapter`, with a parser that reads the
 * address back as the partner of the builder.
 */
module ContentUrl {
  import opened Opt
  import opened Decimal
  import opened Text
  import opened Catalogs
  import opened Reference

  const Prefix: string := "http://scriptures.byu.edu/scriptures/scriptures_ajax/"
  const JstFlag: string := "&jst=JST"

  /** The query text after `?verses=`: the verse text, then the JST flag when asked for. */
  function Options(verses: Option<string>, isJst: Option<bool>): (o: string)
    ensures isJst == Some(true) ==> |o| >= |JstFlag| && o[|o| - |JstFlag|..] == JstFlag
    ensures isJst != Some(true) ==> o == verses.GetOr("")
    ensures verses.GetOr("") <= o
    ensures |o| == |verses.GetOr("")| + (if isJst == Some(true) then |JstFlag| else 0)
  {
    verses.GetOr("") + (if isJst == Some(true) then JstFlag else "")
  }

  /** `encodedScriptureUrlParameters`: `undefined` unless both book id and chapter are given. */
  function EncodedScriptureUrlParameters(bookId: Option<int>, chapter: Option<int>,
                                         verses: Option<string>, isJst: Option<bool>): (r: Option<string>)
    ensures r.Some? <==> bookId.Some? && chapter.Some?
    ensures r.Some? ==> Prefix <= r.value
  {
    if bookId.Some? && chapter.Some? then
      Some(Prefix + IntToString(bookId.value) + "/" + IntToString(chapter.value) + "?verses=" + Options(verses, isJst))
    else None
  }

  /** What a content address names: the book, the chapter and the query options. */
  datatype ContentRequest = ContentRequest(bookId: int, chapter: int, options: string)

  /** Reads an address of the shape the builder produces, with canonical book and chapter text. */
  function ParseContentUrl(url: string): Option<ContentRequest> {
    if !(Prefix <= url) then None
    else
      match Cut(url[|Prefix|..], '/')
      case None => None
      case Some((bookText, rest)) =>
        match Cut(rest, '?')
        case None => None
        case Some((chapterText, query)) =>
          if Canonical(bookText) && Canonical(chapterText) && "verses=" <= query then
            Some(ContentRequest(ParseInt(bookText), ParseInt(chapterText), query[|"verses="|..]))
          else None
  }

  /** An address assembled from canonical book and chapter text reads back as its parts. */
  lemma ParseAssembled(bookText: string, chapterText: string, opts: string)
    requires Canonical(bookText) && Canonical(chapterText)
    ensures ParseContentUrl(Prefix + bookText + "/" + chapterText + "?verses=" + opts)
            == Some(ContentRequest(ParseInt(bookText), ParseInt(chapterText), opts))
  {
    var query := "verses=" + opts;
    var rest := chapterText + ['?'] + query;
    var tail := bookText + ['/'] + rest;
    var url := Prefix + bookText + "/" + chapterText + "?verses=" + opts;
    assert url == Prefix + tail;
    assert Prefix <= url;
    assert url[|Prefix|..] == tail;
    NumeralExcludes(bookText, '/');
    NumeralExcludes(chapterText, '?');
    CutAtFirst(bookText, '/', rest);
    CutAtFirst(chapterText, '?', query);
    assert query[|"verses="|..] == opts;
  }

  /** The builder's address reads back as the book, chapter and options it was given. */
  lemma ParseEncoded(bookId: int, chapter: int, verses: Option<string>, isJst: Option<bool>)
    ensures ParseContentUrl(EncodedScriptureUrlParameters(Some(bookId), Some(chapter), verses, isJst).value)
            == Some(ContentRequest(bookId, chapter, Options(verses, isJst)))
  {
    ParseIntToString(bookId);
    ParseIntToString(chapter);
    ParseAssembled(IntToString(bookId), IntToString(chapter), Options(verses, isJst));
  }

  /**
   * `urlForScriptureChapter`: an address exactly for the references
   * `bookChapterValid` accepts, naming that reference.
   */
  function UrlForScriptureChapter(c: Catalog, bookId: int, chapter: int,
                                  verses: Option<string>, isJst: Option<bool>): (r: Option<string>)
    ensures r.Some? <==> BookChapterValid(c, bookId, chapter)
    ensures r.Some? ==> ParseContentUrl(r.value) == Some(ContentRequest(bookId, chapter, Options(verses, isJst)))
  {
    if bookId in c.books then
      var book := c.books[bookId];
      if (chapter == 0 && book.numChapters == 0) || (chapter > 0 && chapter <= book.numChapters) then
        ParseEncoded(bookId, chapter, verses, isJst);
        EncodedScriptureUrlParameters(Some(bookId), Some(chapter), verses, isJst)
      else None
    else None
  }
}

=== FILE: decimal.dfy ===
/**
 * Decimal text of integers, as JavaScript produces it when a safe integer
 * (magnitude at most 2^53 - 1) is concatenated to a string, and the reverse
 * reading `Number()` performs on such canonical text. Larger magnitudes,
 * which JavaScript neither stores exactly nor always writes in plain
 * decimal, are outside this model.
 */
module Decimal {

  predicate IsDigit(ch: char) {
    '0' <= ch <= '9'
  }

  predicate AllDigits(s: string) {
    forall i :: 0 <= i < |s| ==> IsDigit(s[i])
  }

  /** Decimal numerals: digits, optionally after one leading minus sign (leading zeros allowed). */
  predicate IsNumeral(s: string) {
    || (|s| > 0 && AllDigits(s))
    || (|s| > 1 && s[0] == '-' && AllDigits(s[1..]))
  }

  function DigitChar(d: nat): (ch: char)
    requires d < 10
    ensures IsDigit(ch)
  {
    (('0' as int) + d) as char
  }

  function DigitValue(ch: char): nat
    requires IsDigit(ch)
  {
    (ch as int) - ('0' as int)
  }

  /** Decimal text of a natural number, most significant digit first. */
  function NatToString(n: nat): (s: string)
    ensures |s| > 0 && AllDigits(s)
    ensures s[0] == '0' <==> n == 0
    ensures n == 0 ==> s == "0"
    decreases n
  {
    if n < 10 then [DigitChar(n)] else NatToString(n / 10) + [DigitChar(n % 10)]
  }

  function ParseNat(s: string): nat
    requires AllDigits(s)
    decreases |s|
  {
    if |s| == 0 then 0 else 10 * ParseNat(s[..|s| - 1]) + DigitValue(s[|s| - 1])
  }

  /**
   * The text `"" + n` for an integer `n`: canonical, so a minus sign exactly
   * for negatives and no leading zero except in `"0"`.
   */
  function IntToString(n: int): (s: string)
    ensures IsNumeral(s)
    ensures s[0] == '-' <==> n < 0
    ensures var digits := if n < 0 then s[1..] else s; digits[0] == '0' ==> digits == "0"
  {
    if n < 0 then "-" + NatToString(-n) else NatToString(n)
  }

  /** `Number(s)` on canonical decimal text. */
  function ParseInt(s: string): int
    requires IsNumeral(s)
  {
    if s[0] == '-' then -(ParseNat(s[1..]) as int) else ParseNat(s)
  }

  lemma {:induction false} ParseNatToString(n: nat)
    ensures ParseNat(NatToString(n)) == n
    decreases n
  {
    var s := NatToString(n);
    if n < 10 {
      assert s[..|s| - 1] == [];
    } else {
      assert s[..|s| - 1] == NatToString(n / 10);
      ParseNatToString(n / 10);
    }
  }

  /** Reading back the text of an integer yields that integer. */
  lemma ParseIntToString(n: int)
    ensures ParseInt(IntToString(n)) == n
  {
    if n < 0 {
      assert IntToString(n)[1..] == NatToString(-n);
      ParseNatToString(-n);
    } else {
      ParseNatToString(n);
    }
  }

  /** Canonical decimal text: exactly the text `"" + n` writes for the integer it denotes. */
  predicate Canonical(s: string) {
    IsNumeral(s) && IntToString(ParseInt(s)) == s
  }

  /** Numerals contain no character other than digits and the minus sign. */
  lemma NumeralExcludes(s: string, ch: char)
    requires IsNumeral(s)
    requires !IsDigit(ch) && ch != '-'
    ensures ch !in s
  {
  }
}

=== FILE: loader.dfy ===
/**
 * `init(callback)`: two independent loads, books and volumes, joined by two
 * flags. Whichever success handler runs second builds the per-volume book
 * lists and invokes the callback; the fetches themselves are events.
 */
module Loader {
  import opened Catalogs

  datatype Event = BooksArrived(books: map<int, Book>) | VolumesArrived(volumes: seq<Volume>)

  /** The module state `init` touches, and how often the callback has run. */
  datatype Loader = Loader(
    books: map<int, Book>, volumes: seq<Volume>,
    booksLoaded: bool, volumesLoaded: bool,
    callbacks: nat)

  const Start: Loader := Loader(map[], [], false, false, 0)

  /** The handler for `e` finds the other load already done. */
  predicate Completes(s: Loader, e: Event) {
    if e.BooksArrived? then s.volumesLoaded else s.booksLoaded
  }

  /** The catalog the handler for `e` hands to `cacheBooks`. */
  function Arrive(s: Loader, e: Event): Loader {
    match e
    case BooksArrived(b) => s.(books := b, booksLoaded := true)
    case VolumesArrived(v) => s.(volumes := v, volumesLoaded := true)
  }

  /**
   * One success handler: store the data and raise its flag; if the other
   * flag is up, cache the books and invoke the callback when it is a function.
   */
  function Step(s: Loader, e: Event, hasCallback: bool): (r: Loader)
    requires Completes(s, e) ==> AllCovered(Arrive(s, e).books, Arrive(s, e).volumes)
    ensures r.booksLoaded == (s.booksLoaded || e.BooksArrived?)
    ensures r.volumesLoaded == (s.volumesLoaded || e.VolumesArrived?)
    ensures r.books == Arrive(s, e).books
    ensures !Completes(s, e) ==> r.callbacks == s.callbacks && r.volumes == Arrive(s, e).volumes
    ensures Completes(s, e) ==> r.callbacks == s.callbacks + (if hasCallback then 1 else 0)
    ensures Completes(s, e) ==> |r.volumes| == |Arrive(s, e).volumes|
    ensures Completes(s, e) ==> forall i :: 0 <= i < |r.volumes| ==>
              r.volumes[i].(books := Arrive(s, e).volumes[i].books) == Arrive(s, e).volumes[i]
    ensures Completes(s, e) ==> Cached(Catalog(r.books, r.volumes))
  {
    var s1 := Arrive(s, e);
    if Completes(s, e) then
      var cached := CacheBooks(s1.books, s1.volumes);
      s1.(volumes := cached, callbacks := s.callbacks + if hasCallback then 1 else 0)
    else s1
  }

  /**
   * Whichever load finishes first, after both the volumes carry their cached
   * books, the callback has run exactly once when it is a function, and the
   * first handler alone neither cached nor called back.
   */
  lemma JoinEitherOrder(books: map<int, Book>, volumes: seq<Volume>, hasCallback: bool)
    requires AllCovered(books, volumes)
    ensures var first := Step(Start, BooksArrived(books), hasCallback);
            && first.callbacks == 0 && first.volumes == []
            && Step(first, VolumesArrived(volumes), hasCallback)
               == Loader(books, CacheBooks(books, volumes), true, true, if hasCallback then 1 else 0)
    ensures var first := Step(Start, VolumesArrived(volumes), hasCallback);
            && first.callbacks == 0 && first.volumes == volumes
            && Step(first, BooksArrived(books), hasCallback)
               == Loader(books, CacheBooks(books, volumes), true, true, if hasCallback then 1 else 0)
  {
  }
}

=== FILE: opt.dfy ===
/** The JavaScript `undefined` case of an optional argument or return value. */
module Opt {

  datatype Option<+T> = None | Some(value: T) {

    /** The value when present, otherwise the given default. */
    function GetOr(default: T): T {
      match this
      case Some(v) => v
      case None => default
    }
  }
}

=== FILE: reference.dfy ===
/**
 * Book/chapter references: the validity rule shared by `bookChapterValid`
 * and `urlForScriptureChapter`, and the `nextChapter` / `prevChapter`
 * adjacency that walks the catalog in book-id order.
 */
module Reference {
  import opened Opt
  import opened Catalogs

  datatype Ref = Ref(bookId: int, chapter: int)

  /**
   * `bookChapterValid`: an existing book and a chapter in `[0, numChapters]`,
   * where chapter 0 is rejected for a book that has numbered chapters.
   */
  function BookChapterValid(c: Catalog, bookId: int, chapter: int): (r: bool)
    ensures bookId !in c.books ==> !r
    ensures bookId in c.books && c.books[bookId].numChapters > 0 ==>
              (r <==> 1 <= chapter <= c.books[bookId].numChapters)
    ensures bookId in c.books && c.books[bookId].numChapters == 0 ==> (r <==> chapter == 0)
    ensures bookId in c.books && c.books[bookId].numChapters < 0 ==> !r
  {
    if bookId !in c.books then false
    else
      var book := c.books[bookId];
      if chapter < 0 || chapter > book.numChapters then false
      else if chapter == 0 && book.numChapters > 0 then false
      else true
  }

  predicate Valid(c: Catalog, r: Ref) {
    BookChapterValid(c, r.bookId, r.chapter)
  }

  /** Reading order: by book id, then by chapter. */
  predicate Before(x: Ref, y: Ref) {
    x.bookId < y.bookId || (x.bookId == y.bookId && x.chapter < y.chapter)
  }

  /** `nextChapter`: the following chapter, crossing into the next book id. */
  function NextChapter(c: Catalog, bookId: int, chapter: int): (r: Option<Ref>)
    ensures r.Some? ==> bookId in c.books
    ensures WellFormed(c) && BookChapterValid(c, bookId, chapter) && r.Some? ==>
              Valid(c, r.value) && Before(Ref(bookId, chapter), r.value)
    ensures WellFormed(c) && BookChapterValid(c, bookId, chapter) ==>
              (r.None? <==> chapter == c.books[bookId].numChapters && forall k :: k in c.books ==> k <= bookId)
  {
    if bookId !in c.books then None
    else if chapter < c.books[bookId].numChapters then Some(Ref(bookId, chapter + 1))
    else if bookId + 1 !in c.books then None
    else
      var nextBook := c.books[bookId + 1];
      Some(Ref(nextBook.id, if nextBook.numChapters > 0 then 1 else 0))
  }

  /** `prevChapter`: the preceding chapter, crossing into the previous book id. */
  function PrevChapter(c: Catalog, bookId: int, chapter: int): (r: Option<Ref>)
    ensures r.Some? ==> bookId in c.books
    ensures WellFormed(c) && BookChapterValid(c, bookId, chapter) && r.Some? ==>
              Valid(c, r.value) && Before(r.value, Ref(bookId, chapter))
    ensures WellFormed(c) && BookChapterValid(c, bookId, chapter) ==>
              (r.None? <==> chapter <= 1 && forall k :: k in c.books ==> bookId <= k)
  {
    if bookId !in c.books then None
    else if chapter > 1 then Some(Ref(bookId, chapter - 1))
    else if bookId - 1 !in c.books then None
    else
      var prevBook := c.books[bookId - 1];
      Some(Ref(prevBook.id, prevBook.numChapters))
  }

  function Next(c: Catalog, x: Ref): Option<Ref> {
    NextChapter(c, x.bookId, x.chapter)
  }

  function Prev(c: Catalog, x: Ref): Option<Ref> {
    PrevChapter(c, x.bookId, x.chapter)
  }

  /**
   * On a well-formed catalog `nextChapter` of a valid reference is its
   * immediate successor among valid references, and it is undefined exactly
   * when no valid reference follows.
   */
  lemma NextIsSuccessor(c: Catalog, x: Ref)
    requires WellFormed(c)
    requires Valid(c, x)
    ensures Next(c, x).Some? ==>
              var y := Next(c, x).value;
              && Valid(c, y)
              && Before(x, y)
              && forall z :: Valid(c, z) && Before(x, z) ==> !Before(z, y)
    ensures Next(c, x).None? <==> forall z :: Valid(c, z) ==> !Before(x, z)
  {
  }

  /**
   * On a well-formed catalog `prevChapter` of a valid reference is its
   * immediate predecessor among valid references, and it is undefined exactly
   * when no valid reference precedes.
   */
  lemma PrevIsPredecessor(c: Catalog, x: Ref)
    requires WellFormed(c)
    requires Valid(c, x)
    ensures Prev(c, x).Some? ==>
              var w := Prev(c, x).value;
              && Valid(c, w)
              && Before(w, x)
              && forall z :: Valid(c, z) && Before(z, x) ==> !Before(w, z)
    ensures Prev(c, x).None? <==> forall z :: Valid(c, z) ==> !Before(z, x)
  {
  }

  /** Stepping back from the next chapter returns to where one started. */
  lemma PrevOfNext(c: Catalog, x: Ref)
    requires WellFormed(c)
    requires Valid(c, x)
    requires Next(c, x).Some?
    ensures Prev(c, Next(c, x).value) == Some(x)
  {
  }

  /** Stepping forward from the previous chapter returns to where one started. */
  lemma NextOfPrev(c: Catalog, x: Ref)
    requires WellFormed(c)
    requires Valid(c, x)
    requires Prev(c, x).Some?
    ensures Next(c, Prev(c, x).value) == Some(x)
  {
  }
}

=== FILE: route.dfy ===
/**
 * The route codec: `hash(volumeId, bookId, chapter)` builds the location
 * token, and `onHashChanged` reads the colon-separated segments back and
 * decides which `navigate*` calls to make, in order.
 */
module Route {
  import opened Opt
  import opened Decimal
  import opened Text
  import opened Catalogs
  import opened Reference

  /** The arguments of one `Scriptures.hash(...)` call; a missing one is `undefined`. */
  datatype HashCall = HashCall(volumeId: Option<int>, bookId: Option<int>, chapter: Option<int>)

  /** The integers `hash` actually writes: a missing argument drops every later one. */
  function Args(h: HashCall): (a: seq<int>)
    ensures |a| <= 3
    ensures h.volumeId.None? <==> |a| == 0
    ensures |a| >= 1 ==> a[0] == h.volumeId.value
    ensures |a| >= 2 <==> h.volumeId.Some? && h.bookId.Some?
    ensures |a| >= 2 ==> a[1] == h.bookId.value
    ensures |a| == 3 <==> h.volumeId.Some? && h.bookId.Some? && h.chapter.Some?
    ensures |a| == 3 ==> a[2] == h.chapter.value
  {
    match h
    case HashCall(None, _, _) => []
    case HashCall(Some(v), None, _) => [v]
    case HashCall(Some(v), Some(b), None) => [v, b]
    case HashCall(Some(v), Some(b), Some(ch)) => [v, b, ch]
  }

  /** `hash`: the new token `""`, `"v"`, `"v:b"` or `"v:b:c"`. */
  function Hash(h: HashCall): (token: string)
    ensures token == "" <==> h.volumeId.None?
  {
    if h.volumeId.None? then ""
    else
      IntToString(h.volumeId.value)
      + (if h.bookId.None? then ""
         else ":" + IntToString(h.bookId.value) + (if h.chapter.None? then "" else ":" + IntToString(h.chapter.value)))
  }

  /** The decimal text of each integer. */
  function Numerals(xs: seq<int>): (ss: seq<string>)
    ensures |ss| == |xs|
    ensures forall i :: 0 <= i < |ss| ==> ss[i] == IntToString(xs[i])
    ensures forall i :: 0 <= i < |ss| ==> IsNumeral(ss[i]) && ParseInt(ss[i]) == xs[i]
  {
    if |xs| == 0 then []
    else
      ParseIntToString(xs[0]);
      [IntToString(xs[0])] + Numerals(xs[1..])
  }

  /** `Number()` of each canonical segment. */
  function Numbers(ss: seq<string>): (xs: seq<int>)
    requires forall i :: 0 <= i < |ss| ==> IsNumeral(ss[i])
    ensures |xs| == |ss|
    ensures forall i :: 0 <= i < |xs| ==> xs[i] == ParseInt(ss[i])
  {
    if |ss| == 0 then [] else [ParseInt(ss[0])] + Numbers(ss[1..])
  }

  /** `window.location.hash` after it has been assigned `token`. */
  function LocationHash(token: string): (hash: string)
    ensures token == "" ==> hash == ""
    ensures token != "" ==> |hash| == |token| + 1 && hash[0] == '#' && hash[1..] == token
  {
    if token == "" then "" else "#" + token
  }

  /** The segment list `onHashChanged` reads: nothing for `""` or `"#"`. */
  function Segments(hash: string): (ids: seq<string>)
    ensures |hash| <= 1 ==> ids == []
    ensures |hash| > 1 ==> |ids| >= 1 && Join(ids, ':') == hash[1..]
    ensures forall i :: 0 <= i < |ids| ==> ':' !in ids[i]
  {
    if hash != "" && |hash| > 1 then
      JoinSplit(hash[1..], ':');
      Split(hash[1..], ':')
    else []
  }

  /** A non-empty token is the `:`-join of the decimal text of the integers written. */
  lemma HashIsJoin(h: HashCall)
    requires h.volumeId.Some?
    ensures Hash(h) == Join(Numerals(Args(h)), ':')
  {
    var v := IntToString(h.volumeId.value);
    if h.bookId.None? {
      assert Numerals(Args(h)) == [v];
    } else {
      var b := IntToString(h.bookId.value);
      if h.chapter.None? {
        assert Numerals(Args(h)) == [v, b];
        assert [v, b][1..] == [b];
      } else {
        var ch := IntToString(h.chapter.value);
        assert Numerals(Args(h)) == [v, b, ch];
        assert [v, b, ch][1..] == [b, ch];
        assert [b, ch][1..] == [ch];
        assert Join([b, ch], ':') == b + ":" + ch;
        assert Hash(h) == v + (":" + b + (":" + ch));
      }
    }
  }

  /**
   * Splitting the location set by `hash` yields the decimal text of the
   * integers it was given, and `Number()` of those segments restores them.
   */
  lemma HashSegments(h: HashCall)
    ensures Segments(LocationHash(Hash(h))) == Numerals(Args(h))
    ensures Numbers(Numerals(Args(h))) == Args(h)
  {
    var parts := Numerals(Args(h));
    if h.volumeId.Some? {
      forall i | 0 <= i < |parts|
        ensures ':' !in parts[i]
      {
        NumeralExcludes(parts[i], ':');
      }
      HashIsJoin(h);
      SplitJoin(parts, ':');
      assert LocationHash(Hash(h))[1..] == Hash(h);
    }
  }

  /** One call of the private `navigateHome`, `navigateBook` or `navigateChapter`. */
  datatype NavCall =
    | HomeCall(volumeId: Option<int>)
    | BookCall(bookId: int)
    | ChapterCall(bookId: int, chapter: int)

  /**
   * The decision logic of `onHashChanged` over the numeric segments, as
   * written: the two- and three-segment branches have no `else`, so a failed
   * check calls `navigateHome()` and then still the book or chapter view.
   */
  function OnHashChanged(c: Catalog, ids: seq<int>): (calls: seq<NavCall>)
    requires |ids| == 1 ==> |c.volumes| > 0
    ensures 1 <= |calls| <= 2
    ensures |calls| == 2 ==> calls[0] == HomeCall(None)
    ensures |ids| <= 1 ==> |calls| == 1 && calls[0].HomeCall?
    ensures |ids| == 2 ==> calls[|calls| - 1] == BookCall(ids[1])
    ensures |ids| >= 3 ==> calls[|calls| - 1] == ChapterCall(ids[1], ids[2])
  {
    if |ids| == 0 then [HomeCall(None)]
    else if |ids| == 1 then
      var volumeId := ids[0];
      if volumeId < c.volumes[0].id || volumeId > c.volumes[|c.volumes| - 1].id then [HomeCall(None)]
      else [HomeCall(Some(volumeId))]
    else if |ids| == 2 then
      var bookId := ids[1];
      (if bookId !in c.books then [HomeCall(None)] else []) + [BookCall(bookId)]
    else
      var bookId := ids[1];
      var chapter := ids[2];
      (if !BookChapterValid(c, bookId, chapter) then [HomeCall(None)] else []) + [ChapterCall(bookId, chapter)]
  }

  /**
   * On a well-formed catalog a single segment shows that volume exactly
   * when it is an existing volume id, and a failed check is the only source
   * of a leading `navigateHome()` in the longer branches.
   */
  lemma DecodeSegments(c: Catalog, ids: seq<int>)
    requires WellFormed(c)
    requires |ids| == 1 ==> |c.volumes| > 0
    ensures |ids| == 1 ==>
              OnHashChanged(c, ids) == if 1 <= ids[0] <= |c.volumes| then [HomeCall(Some(ids[0]))] else [HomeCall(None)]
    ensures |ids| == 2 ==> (|OnHashChanged(c, ids)| == 1 <==> ids[1] in c.books)
    ensures |ids| >= 3 ==> (|OnHashChanged(c, ids)| == 1 <==> BookChapterValid(c, ids[1], ids[2]))
  {
  }

  /** The volume segment and any segment after the third are not read. */
  lemma DecodeIgnores(c: Catalog, ids: seq<int>, v: int)
    requires |ids| >= 2
    ensures OnHashChanged(c, [v] + ids[1..]) == OnHashChanged(c, ids)
    ensures |ids| >= 3 ==> OnHashChanged(c, ids) == OnHashChanged(c, ids[..3])
  {
  }

  /**
   * Following a token built by `hash` on a well-formed catalog: the home
   * route, an existing volume, an existing book or a valid chapter each
   * decode to the single matching call, whatever volume id accompanies the
   * book or chapter.
   */
  lemma HashRoundTrip(c: Catalog, h: HashCall)
    requires WellFormed(c)
    requires |Args(h)| == 1 ==> |c.volumes| > 0
    ensures var ss := Segments(LocationHash(Hash(h)));
            && (forall i :: 0 <= i < |ss| ==> IsNumeral(ss[i]))
            && OnHashChanged(c, Numbers(ss)) == OnHashChanged(c, Args(h))
    ensures h.volumeId.None? ==> OnHashChanged(c, Args(h)) == [HomeCall(None)]
    ensures h.volumeId.Some? && h.bookId.None? && 1 <= h.volumeId.value <= |c.volumes| ==>
              OnHashChanged(c, Args(h)) == [HomeCall(h.volumeId)]
    ensures h.volumeId.Some? && h.bookId.Some? && h.chapter.None? && h.bookId.value in c.books ==>
              OnHashChanged(c, Args(h)) == [BookCall(h.bookId.value)]
    ensures h.volumeId.Some? && h.bookId.Some? && h.chapter.Some?
            && BookChapterValid(c, h.bookId.value, h.chapter.value) ==>
              OnHashChanged(c, Args(h)) == [ChapterCall(h.bookId.value, h.chapter.value)]
  {
    HashSegments(h);
  }

  /**
   * `onHashChanged` with the fall-back its branches evidently intend: a
   * failed check shows the home view instead of the book or chapter view.
   */
  function OnHashChangedFallback(c: Catalog, ids: seq<int>): (calls: seq<NavCall>)
    requires |ids| == 1 ==> |c.volumes| > 0
    ensures |calls| == 1
    ensures calls[0].BookCall? ==> calls[0].bookId in c.books
    ensures calls[0].ChapterCall? ==> BookChapterValid(c, calls[0].bookId, calls[0].chapter)
  {
    if |ids| == 0 then [HomeCall(None)]
    else if |ids| == 1 then
      var volumeId := ids[0];
      if volumeId < c.volumes[0].id || volumeId > c.volumes[|c.volumes| - 1].id then [HomeCall(None)]
      else [HomeCall(Some(volumeId))]
    else if |ids| == 2 then
      if ids[1] !in c.books then [HomeCall(None)] else [BookCall(ids[1])]
    else
      if !BookChapterValid(c, ids[1], ids[2]) then [HomeCall(None)] else [ChapterCall(ids[1], ids[2])]
  }

  /**
   * The two decoders agree whenever the written code makes a single call,
   * and otherwise the fall-back keeps only the leading `navigateHome()`.
   */
  lemma FallbackAgrees(c: Catalog, ids: seq<int>)
    requires |ids| == 1 ==> |c.volumes| > 0
    ensures |OnHashChanged(c, ids)| == 1 ==> OnHashChangedFallback(c, ids) == OnHashChanged(c, ids)
    ensures |OnHashChanged(c, ids)| == 2 ==> OnHashChangedFallback(c, ids) == [OnHashChanged(c, ids)[0]]
  {
  }
}

=== FILE: text.dfy ===
/** String splitting on a single delimiter character, as `String.prototype.split` does. */
module Text {
  import opened Opt

  /** `s.split(d)`: the pieces between delimiters; the empty string gives one empty piece. */
  function Split(s: string, d: char): (parts: seq<string>)
    ensures |parts| >= 1
    ensures forall i :: 0 <= i < |parts| ==> d !in parts[i]
    decreases |s|
  {
    if |s| == 0 then [""]
    else
      var rest := Split(s[1..], d);
      if s[0] == d then [""] + rest else [[s[0]] + rest[0]] + rest[1..]
  }

  /** `parts.join(d)`. */
  function Join(parts: seq<string>, d: char): string
    requires |parts| >= 1
    decreases |parts|
  {
    if |parts| == 1 then parts[0] else parts[0] + [d] + Join(parts[1..], d)
  }

  /**
   * The text before the first `d` and the text after it, or `None` when `d`
   * does not occur.
   */
  function Cut(s: string, d: char): (r: Option<(string, string)>)
    ensures r.None? <==> d !in s
    ensures r.Some? ==> s == r.value.0 + [d] + r.value.1 && d !in r.value.0
    decreases |s|
  {
    if |s| == 0 then None
    else if s[0] == d then Some(("", s[1..]))
    else
      match Cut(s[1..], d)
      case None => None
      case Some((a, b)) => Some(([s[0]] + a, b))
  }

  /** Joining the pieces of a split restores the text. */
  lemma {:induction false} JoinSplit(s: string, d: char)
    ensures Join(Split(s, d), d) == s
    decreases |s|
  {
    if |s| > 0 {
      var rest := Split(s[1..], d);
      JoinSplit(s[1..], d);
      if s[0] == d {
        assert Split(s, d) == [""] + rest;
        assert ([""] + rest)[1..] == rest;
        assert s == [d] + s[1..];
      } else if |rest| == 1 {
        assert Split(s, d) == [[s[0]] + rest[0]];
        assert s == [s[0]] + s[1..];
      } else {
        var parts := Split(s, d);
        assert parts == [[s[0]] + rest[0]] + rest[1..];
        assert parts[1..] == rest[1..];
        assert Join(rest, d) == rest[0] + [d] + Join(rest[1..], d);
        assert s == [s[0]] + s[1..];
      }
    }
  }

  lemma {:induction false} SplitDelimiterFree(a: string, d: char)
    requires d !in a
    ensures Split(a, d) == [a]
    decreases |a|
  {
    if |a| > 0 {
      SplitDelimiterFree(a[1..], d);
      assert a == [a[0]] + a[1..];
    }
  }

  lemma {:induction false} SplitAtFirst(a: string, d: char, t: string)
    requires d !in a
    ensures Split(a + [d] + t, d) == [a] + Split(t, d)
    decreases |a|
  {
    var s := a + [d] + t;
    if |a| == 0 {
      assert s[1..] == t;
    } else {
      assert s[1..] == a[1..] + [d] + t;
      SplitAtFirst(a[1..], d, t);
      assert a == [a[0]] + a[1..];
    }
  }

  /** Splitting a join of delimiter-free pieces recovers the pieces. */
  lemma {:induction false} SplitJoin(parts: seq<string>, d: char)
    requires |parts| >= 1
    requires forall i :: 0 <= i < |parts| ==> d !in parts[i]
    ensures Split(Join(parts, d), d) == parts
    decreases |parts|
  {
    if |parts| == 1 {
      SplitDelimiterFree(parts[0], d);
    } else {
      SplitJoin(parts[1..], d);
      SplitAtFirst(parts[0], d, Join(parts[1..], d));
      assert parts == [parts[0]] + parts[1..];
    }
  }

  /** Cutting at the first delimiter finds the delimiter-free prefix. */
  lemma {:induction false} CutAtFirst(a: string, d: char, t: string)
    requires d !in a
    ensures Cut(a + [d] + t, d) == Some((a, t))
    decreases |a|
  {
    var s := a + [d] + t;
    if |a| == 0 {
      assert s[1..] == t;
    } else {
      assert s[1..] == a[1..] + [d] + t;
      CutAtFirst(a[1..], d, t);
      assert a == [a[0]] + a[1..];
    }
  }
}

=== FILE: view.dfy ===
/**
 * What each `navigate*` call puts on screen, as values instead of HTML: the
 * content area (`#scriptures`) and the breadcrumb list (`#crumb`).
 */
module View {
  import opened Opt
  import opened Decimal
  import opened Catalogs
  import opened Reference
  import opened Route

  const TheScriptures: string := "The Scriptures"

  /** One breadcrumb: its label and, when it is a link, the `hash` call its click makes. */
  datatype Crumb = Crumb(text: string, link: Option<HashCall>)

  /** How many crumbs `breadcrumbs(volume, book, chapter)` shows. */
  function Depth(volume: Option<Volume>, book: Option<Book>, chapter: Option<int>): nat {
    if volume.None? then 1
    else if book.None? then 2
    else if chapter.None? || chapter.value == 0 then 3
    else 4
  }

  /**
   * `breadcrumbs`: "The Scriptures", then the volume, the book and the
   * chapter as far as they are given; every crumb but the last is a link.
   */
  function Breadcrumbs(volume: Option<Volume>, book: Option<Book>, chapter: Option<int>): (r: seq<Crumb>)
    ensures |r| == Depth(volume, book, chapter)
    ensures r[0].text == TheScriptures
    ensures r[|r| - 1].link.None?
    ensures forall i :: 0 <= i < |r| - 1 ==> r[i].link.Some?
    ensures |r| >= 2 ==> r[1].text == volume.value.fullName
    ensures |r| >= 3 ==> r[2].text == book.value.tocName
    ensures |r| == 4 ==> Canonical(r[3].text) && ParseInt(r[3].text) == chapter.value
  {
    if volume.None? then [Crumb(TheScriptures, None)]
    else
      var home := Crumb(TheScriptures, Some(HashCall(None, None, None)));
      if book.None? then [home, Crumb(volume.value.fullName, None)]
      else
        var volumeCrumb := Crumb(volume.value.fullName, Some(HashCall(Some(volume.value.id), None, None)));
        if chapter.None? || chapter.value == 0 then [home, volumeCrumb, Crumb(book.value.tocName, None)]
        else
          ParseIntToString(chapter.value);
          [ home, volumeCrumb,
            Crumb(book.value.tocName, Some(HashCall(Some(0), Some(book.value.id), None))),
            Crumb(IntToString(chapter.value), None) ]
  }

  /**
   * Every link in the crumbs of a chapter of a well-formed catalog leads one
   * level up: to the home view, to the volume's view, to the book's view.
   */
  lemma CrumbLinksLeadUp(c: Catalog, i: int, bookId: int, chapter: Option<int>)
    requires WellFormed(c)
    requires 0 <= i < |c.volumes|
    requires bookId in c.books
    ensures var r := Breadcrumbs(Some(c.volumes[i]), Some(c.books[bookId]), chapter);
            && OnHashChanged(c, Args(r[0].link.value)) == [HomeCall(None)]
            && OnHashChanged(c, Args(r[1].link.value)) == [HomeCall(Some(c.volumes[i].id))]
            && (|r| == 4 ==> OnHashChanged(c, Args(r[2].link.value)) == [BookCall(bookId)])
  {
  }

  /** The volumes of `vols` that `navigateHome(volumeId)` lists, in array order. */
  function SelectVolumes(vols: seq<Volume>, volumeId: Option<int>): (r: seq<Volume>)
    ensures |r| <= |vols|
    ensures forall x :: x in r <==> x in vols && (volumeId.None? || x.id == volumeId.value)
    decreases |vols|
  {
    if |vols| == 0 then []
    else
      (if volumeId.None? || vols[0].id == volumeId.value then [vols[0]] else [])
      + SelectVolumes(vols[1..], volumeId)
  }

  /** Without a volume id every volume is listed, in order. */
  lemma {:induction false} SelectAll(vols: seq<Volume>)
    ensures SelectVolumes(vols, None) == vols
    decreases |vols|
  {
    if |vols| > 0 {
      SelectAll(vols[1..]);
      assert vols == [vols[0]] + vols[1..];
    }
  }

  /** With consecutively numbered volumes an id selects at most the one volume carrying it. */
  lemma {:induction false} SelectNumbered(vols: seq<Volume>, base: int, v: int)
    requires forall i :: 0 <= i < |vols| ==> vols[i].id == base + i
    ensures SelectVolumes(vols, Some(v)) == if base <= v < base + |vols| then [vols[v - base]] else []
    decreases |vols|
  {
    if |vols| > 0 {
      SelectNumbered(vols[1..], base + 1, v);
      if v == base {
        assert SelectVolumes(vols[1..], Some(v)) == [];
      }
    }
  }

  datatype Content =
    | Blank
      /** The volumes listed, each with its cached books. */
    | Listing(volumes: seq<Volume>)
    | BookStub(bookId: int)
    | ChapterStub(bookId: int, chapter: int)

  datatype Screen = Screen(content: Content, crumbs: seq<Crumb>)

  /** A call either finishes or throws part-way, leaving what it already wrote. */
  datatype Outcome = Shown(screen: Screen) | Crashed(screen: Screen)

  /** `navigateHome(volumeId)`: list the selected volumes; crumbs for `volumeArray[volumeId - 1]`. */
  function NavigateHome(c: Catalog, volumeId: Option<int>): (s: Screen)
    ensures s.content.Listing?
    ensures |s.crumbs| == if volumeId.Some? && 1 <= volumeId.value <= |c.volumes| then 2 else 1
  {
    var volume := if volumeId.None? then None else VolumeAt(c, volumeId.value - 1);
    Screen(Listing(SelectVolumes(c.volumes, volumeId)), Breadcrumbs(volume, None, None))
  }

  /** The home view lists every volume, with a single unlinked crumb. */
  lemma HomeView(c: Catalog)
    ensures NavigateHome(c, None) == Screen(Listing(c.volumes), [Crumb(TheScriptures, None)])
  {
    SelectAll(c.volumes);
  }

  /** An existing volume's view lists that volume alone, under a link back home. */
  lemma VolumeView(c: Catalog, v: int)
    requires WellFormed(c)
    requires 1 <= v <= |c.volumes|
    ensures NavigateHome(c, Some(v)) ==
            Screen(Listing([c.volumes[v - 1]]),
                   [Crumb(TheScriptures, Some(HashCall(None, None, None))), Crumb(c.volumes[v - 1].fullName, None)])
  {
    SelectNumbered(c.volumes, 1, v);
  }

  /**
   * `navigateBook(bookId)`: the content is written first; reading the
   * parent of a missing book then throws, so the crumbs stay as they were.
   */
  function NavigateBook(c: Catalog, s: Screen, bookId: int): (r: Outcome)
    ensures r.screen.content == BookStub(bookId)
    ensures r.Crashed? <==> bookId !in c.books
    ensures r.Crashed? ==> r.screen.crumbs == s.crumbs
    ensures r.Shown? ==> |r.screen.crumbs| >= 1 && r.screen.crumbs[|r.screen.crumbs| - 1].link.None?
  {
    var s1 := s.(content := BookStub(bookId));
    if bookId !in c.books then Crashed(s1)
    else
      var book := c.books[bookId];
      Shown(s1.(crumbs := Breadcrumbs(VolumeAt(c, book.parentBookId - 1), Some(book), None)))
  }

  /** `navigateChapter(bookId, chapter)`: as `navigateBook`, with the chapter crumb. */
  function NavigateChapter(c: Catalog, s: Screen, bookId: int, chapter: int): (r: Outcome)
    ensures r.screen.content == ChapterStub(bookId, chapter)
    ensures r.Crashed? <==> bookId !in c.books
    ensures r.Crashed? ==> r.screen.crumbs == s.crumbs
    ensures r.Shown? ==> |r.screen.crumbs| >= 1 && r.screen.crumbs[|r.screen.crumbs| - 1].link.None?
  {
    var s1 := s.(content := ChapterStub(bookId, chapter));
    if bookId !in c.books then Crashed(s1)
    else
      var book := c.books[bookId];
      Shown(s1.(crumbs := Breadcrumbs(VolumeAt(c, book.parentBookId - 1), Some(book), Some(chapter))))
  }

  /** The call reads a field of a missing book and throws. */
  predicate Throws(c: Catalog, call: NavCall) {
    (call.BookCall? || call.ChapterCall?) && call.bookId !in c.books
  }

  const Empty: Screen := Screen(Blank, [])

  function Perform(c: Catalog, s: Screen, call: NavCall): (r: Outcome)
    ensures r.Crashed? <==> Throws(c, call)
  {
    match call
    case HomeCall(v) => Shown(NavigateHome(c, v))
    case BookCall(b) => NavigateBook(c, s, b)
    case ChapterCall(b, ch) => NavigateChapter(c, s, b, ch)
  }

  /** A call that does not throw overwrites both the content and the crumbs. */
  lemma PerformOverwrites(c: Catalog, s: Screen, call: NavCall)
    ensures Perform(c, s, call).Shown? ==> Perform(c, s, call) == Perform(c, Empty, call)
  {
  }

  /**
   * Make the calls in order; a throwing call ends the handler. The handler
   * finishes exactly when no call throws, and then the last call alone
   * decides what is shown.
   */
  function Run(c: Catalog, s: Screen, calls: seq<NavCall>): (r: Outcome)
    ensures |calls| == 0 ==> r == Shown(s)
    ensures r.Shown? <==> forall i :: 0 <= i < |calls| ==> !Throws(c, calls[i])
    ensures r.Shown? && |calls| > 0 ==> r.screen == Perform(c, Empty, calls[|calls| - 1]).screen
    decreases |calls|
  {
    if |calls| == 0 then Shown(s)
    else
      match Perform(c, s, calls[0])
      case Crashed(s1) => Crashed(s1)
      case Shown(s1) =>
        PerformOverwrites(c, s, calls[0]);
        Run(c, s1, calls[1..])
  }

  /**
   * As written, a failed check in the two- or three-segment branch does not
   * end on the home view: a missing book throws after replacing the content,
   * and an existing book with a bad chapter shows that chapter anyway.
   */
  lemma FailedCheckAsWritten(c: Catalog, s: Screen, v: int, bookId: int, chapter: int)
    ensures bookId !in c.books ==>
              Run(c, s, OnHashChanged(c, [v, bookId])) == Crashed(Screen(BookStub(bookId), NavigateHome(c, None).crumbs))
    ensures bookId !in c.books ==>
              Run(c, s, OnHashChanged(c, [v, bookId, chapter]))
              == Crashed(Screen(ChapterStub(bookId, chapter), NavigateHome(c, None).crumbs))
    ensures bookId in c.books && !BookChapterValid(c, bookId, chapter) ==>
              Run(c, s, OnHashChanged(c, [v, bookId, chapter]))
              == NavigateChapter(c, s, bookId, chapter)
              == Shown(Screen(ChapterStub(bookId, chapter),
                              Breadcrumbs(VolumeAt(c, c.books[bookId].parentBookId - 1), Some(c.books[bookId]), Some(chapter))))
  {
  }

  /**
   * With the fall-back decoder no token throws, and a token whose check
   * fails ends on the home view listing every volume.
   */
  lemma FallbackShowsHome(c: Catalog, s: Screen, ids: seq<int>)
    requires |ids| == 1 ==> |c.volumes| > 0
    ensures Run(c, s, OnHashChangedFallback(c, ids)).Shown?
    ensures |OnHashChanged(c, ids)| == 2 ==>
              Run(c, s, OnHashChangedFallback(c, ids)) == Shown(Screen(Listing(c.volumes), [Crumb(TheScriptures, None)]))
  {
    var calls := OnHashChangedFallback(c, ids);
    FallbackAgrees(c, ids);
    HomeView(c);
    assert calls[1..] == [];
  }

  /** An existing book's token ends on that book's view, with crumbs for it. */
  lemma BookRouteView(c: Catalog, s: Screen, v: int, bookId: int)
    requires bookId in c.books
    ensures Run(c, s, OnHashChanged(c, [v, bookId])) ==
            Shown(Screen(BookStub(bookId),
                         Breadcrumbs(VolumeAt(c, c.books[bookId].parentBookId - 1), Some(c.books[bookId]), None)))
  {
  }

  /** A valid chapter token ends on that chapter's view, with crumbs for it. */
  lemma ChapterRouteView(c: Catalog, s: Screen, v: int, bookId: int, chapter: int)
    requires BookChapterValid(c, bookId, chapter)
    ensures Run(c, s, OnHashChanged(c, [v, bookId, chapter])) ==
            Shown(Screen(ChapterStub(bookId, chapter),
                         Breadcrumbs(VolumeAt(c, c.books[bookId].parentBookId - 1), Some(c.books[bookId]), Some(chapter))))
  {
  }
}
